=== FILE: README.md ===
# Price scraper core, modelled in Dafny

A model of the extraction and collection logic of `PriceScraper` (`main.py`), a
scraper that reads the info bar of a financial-data homepage, picks nine price
quotations out of it by their Persian labels, and accumulates one timestamped row
per run in a DataFrame that it saves as `price.csv`.

The model has four modules plus a small wrapper module:

- `Text` (`text.dfy`): Python's `str.strip()` (with the exact whitespace set of
  `str.isspace()`) and `str.split("\n")`, with their laws: strip removes only
  surrounding whitespace and is fully characterised by that, is idempotent, and
  yields `""` exactly for blank text; split and `"\n".join` are inverse to each
  other.
- `Fragments` (`fragments.dfy`): the cleaning of lines 54-57. The text is split on
  line breaks, each fragment is stripped, and fragments that are empty, equal to
  `")"`, or contain `%` are dropped. The filter is an order-preserving subsequence,
  keeps exactly the non-noise fragments, is idempotent and distributes over
  concatenation.
- `Extract` (`extract.dfy`): the column map of lines 15-25, `list.index`, the
  label-following lookup of lines 60-66 and `_scrape_prices` as a whole. A fetched
  page is a value `Page`: the request raised (`Unreachable`), or the page parsed
  and the info-bar container was found with some text or was not found. Date and
  time are opaque strings passed in.
- `Collector` (`collector.dfy`): `get_prices` as a state transition on a `Scraper`
  (the DataFrame's rows plus what is known of the CSV file), `dropna`,
  the fold of many calls, and `start_scheduled_scraping` as a method whose loop
  records a trace of calls and sleeps. Each call's environment is an `Attempt`: the
  outcome of `_scrape_prices` at that moment and whether `to_csv` succeeds.

## Behaviour of the code worth knowing

- A label whose first occurrence is the last fragment does not give a `None`
  field: `price_items[index + 1]` raises `IndexError`, which the
  `except ValueError` of `main.py` line 65 does not catch, so the whole scrape
  raises and `get_prices` leaves the dataset unchanged (`Extract.LookupField`,
  `Extract.LastLabelFailsScrape`, `Collector.LastLabelLeavesScraper`).
- `to_csv` (line 88) sits inside the `try`, after the scrape, so an iteration
  whose scrape raises writes nothing (`Collector.GetPrices`).
- `start_scheduled_scraping` accepts any integer count; `range` of a
  non-positive count runs no iteration.
- `time.sleep` raises `ValueError` for a negative interval and `OverflowError`
  for one too large to count in 64-bit nanoseconds. Nothing catches either, so
  the loop stops after its first call (`Collector.StartScheduledScraping`).
- A failing `to_csv` is caught by the same `except` as a failing scrape, but
  only after the DataFrame has been updated: the dataset keeps the new row. As
  `to_csv` truncates the file when it opens it, the file's contents are then
  unknown (`Collector.GetPrices`). A file known to hold a dataset always holds
  exactly the current one (`Collector.Valid`).
- `dropna` keeps a row only when every price column has a value; a column the
  record lacks counts as missing, so `Extract.Complete` asks for all nine
  columns as well as for no `None` among them.

## Model

| member | source | states |
|---|---|---|
| Text.Strip | main.py:37-41 | the stripped fragment neither starts nor ends with a character of Python's whitespace set and is no longer than the fragment |
| Text.StripPadded | main.py:41 | the line is its strip with whitespace, possibly none, on either side |
| Text.StripDecomposes | main.py:41 | strip only removes whitespace: the fragment is a whitespace run, the stripped text, and another whitespace run |
| Text.StripUnique | main.py:41 | conversely, whatever trimmed text sits between two whitespace runs is exactly what strip returns, so strip is fully determined |
| Text.StripIdempotent | main.py:41 | stripping a stripped fragment changes nothing |
| Text.StripEmptyIff | main.py:41 | a fragment strips to the empty string exactly when it is whitespace only |
| Text.Split | main.py:55 | splitting on line breaks yields at least one piece and no piece contains a line break |
| Text.JoinSplit | main.py:55 | joining the pieces with line breaks gives the text back |
| Text.SplitJoin | main.py:55 | splitting a line-break join of break-free pieces gives the pieces back |
| Text.SplitCount | main.py:55 | there is one more piece than there are line breaks |
| Fragments.Keep | main.py:57 | the noise test: a fragment is kept when non-empty, not `)` and free of `%`; its consequences are stated by FilterMembers and FilterFixpoint |
| Fragments.StripAll | main.py:55 | every line stripped: one result per line, each trimmed, no longer than its line, and equal to the line with only whitespace taken off either end |
| Fragments.PriceItems | main.py:54-57 | `price_items`: every item is noise-free and there are at most as many items as lines; PriceItemsOneLine and PriceItemsNextLine determine it for every text, and PriceItemsClean and PriceItemsMembers describe its items |
| Fragments.Filter | main.py:57 | every kept fragment is non-empty, is not `)` and has no `%`; the list does not grow |
| Fragments.FilterSubseq | main.py:57 | the filtered list is an order-preserving subsequence of its input |
| Fragments.FilterMembers | main.py:57 | a fragment is kept exactly when it occurs in the input and is not noise |
| Fragments.FilterFixpoint | main.py:57 | the filter leaves a list unchanged exactly when it holds no noise |
| Fragments.FilterIdempotent | main.py:57 | filtering an already filtered list leaves it unchanged |
| Fragments.FilterAppend | main.py:57 | filtering works fragment by fragment: it distributes over concatenation |
| Fragments.BlankDropped | main.py:55-57 | a whitespace-only fragment strips to a noise fragment and is removed |
| Fragments.PriceItemsClean | main.py:54-57 | every item of `price_items` is noise-free, holds no line break and equals its own strip; the list is an ordered subsequence of the stripped fragments |
| Fragments.PriceItemsOneLine | main.py:54-57 | a text without a line break yields its strip, or nothing when that strip is noise |
| Fragments.PriceItemsNextLine | main.py:54-57 | the first line's item, if any, comes first, followed by the items of the rest of the text, repeats included |
| Fragments.PriceItemsMembers | main.py:54-57 | an item occurs in `price_items` exactly when it is the strip of some line of the text and is not noise |
| Fragments.BlankText | main.py:54-57 | whitespace-only container text yields no items |
| Extract.Columns | main.py:27 | the header is the nine English names in map order, then Date and Time |
| Extract.ColumnsDistinct | main.py:15-27 | the eleven header names are pairwise different and there are nine price columns |
| Extract.NamesDistinct | main.py:15-25 | the nine English names are pairwise different |
| Extract.LabelsDistinct | main.py:15-25 | the nine Persian labels are pairwise different, so the dict literal has nine entries |
| Extract.IndexOf | main.py:63 | `list.index` gives the first position of the label, and fails exactly when the label is absent |
| Extract.LookupField | main.py:62-66 | an absent label gives `None`; otherwise the fragment after its first occurrence, or an uncaught index error when that occurrence is last |
| Extract.LookupFailsIff | main.py:62-66 | the lookup raises exactly when the label's only occurrence is the last fragment |
| Extract.LookupIgnoresSuffix | main.py:63-64 | later duplicates of a label are never consulted: fragments after its first non-final occurrence do not change the lookup |
| Extract.BuildFields | main.py:60-66 | the loop over the column map succeeds exactly when every label's lookup does; its only failure is the index error |
| Extract.BuildFieldsContents | main.py:60-66 | after the loop, the fields are exactly the visited English columns, each holding its own label's lookup, independently of the other labels |
| Extract.ScrapePrices | main.py:43-73 | the scrape raises a fetch failure exactly for an unreachable page, container-not-found exactly for a missing container, and the index error exactly when some label's lookup raises |
| Extract.ScrapedRecord | main.py:60-71 | a successful scrape has exactly the nine English price keys, each from its own label's lookup, and the given Date and Time |
| Extract.CompleteIffAllLabels | main.py:60-66 | a scraped record has a value in all nine price columns exactly when all nine labels occur in the cleaned fragments |
| Extract.EmptyContainer | main.py:50-66 | a container with no text is still found and yields a record whose nine prices are all `None` |
| Extract.LastLabelFailsScrape | main.py:62-66 | a label whose only occurrence is the last fragment makes the whole scrape raise rather than yield `None` |
| Extract.DollarAndCoin | main.py:63-64 | in `دلار, 58,200, سکه, 28,500,000` the Dollar and Coin labels give the fragments after them and an absent label gives `None` |
| Collector.DropNa | main.py:86 | `dropna` leaves only complete rows, each taken from its input, and never more rows than it was given |
| Collector.DropNaMembers | main.py:86 | a row survives `dropna` exactly when it is a complete row of the input: incomplete rows are removed, not replaced |
| Collector.DropNaFixpoint | main.py:86 | `dropna` changes nothing exactly when every row is complete |
| Collector.DropNaAppend | main.py:84-86 | `dropna` of a concatenation is the concatenation of the `dropna`s |
| Collector.Init | main.py:27 | a fresh scraper has no rows, no file known to hold a dataset, and satisfies the invariant |
| Collector.NewRows | main.py:84-86 | the net effect of concatenating a row and running `dropna`: at most one row, complete; the record is added exactly when it has a value in every price column, and nothing else is added |
| Collector.GetPrices | main.py:79-91 | a raising scrape leaves the scraper unchanged; otherwise complete old rows stay and the new row is appended exactly when complete; a successful write leaves the file holding the whole dataset, a failed one leaves its contents unknown |
| Collector.GetPricesValid | main.py:79-91 | one call keeps every row complete and a file known to hold a dataset holding exactly the current one |
| Collector.Collect | main.py:98-100 | the state after `k` calls of `get_prices`, characterised by CollectRows, CollectValid and CollectAllComplete |
| Collector.CollectRows | main.py:98-100 | after `k` calls the dataset is the starting rows followed by the complete records of the successful scrapes, in scrape order |
| Collector.CollectValid | main.py:98-100 | after any number of calls every row is complete and `price.csv`, when known to hold a dataset, holds exactly the final one |
| Collector.CollectAllComplete | main.py:98-100 | when every scrape succeeds completely, `k` calls add exactly `k` rows, the i-th being the i-th scrape |
| Collector.FailureMidRun | main.py:79-100 | three calls whose second scrape raises leave exactly the first and third rows, in order |
| Collector.SavedAfterWrite | main.py:84-88 | after a call whose scrape and write succeed, the file holds the whole current dataset (overwrite, not append) |
| Collector.LastLabelLeavesScraper | main.py:64-91 | a page whose only occurrence of a label is last leaves the scraper unchanged, file included |
| Collector.ScheduleCounts | main.py:98-103 | a full schedule of `n` iterations calls `get_prices` max(n, 0) times, sleeps max(n-1, 0) times, and never ends with a sleep |
| Collector.SleepRaises | main.py:103 | `time.sleep` raises for a negative interval and for one whose nanosecond count exceeds 2^63-1; StartScheduledScraping stops after one call exactly then |
| Collector.StartScheduledScraping | main.py:98-104 | the loop completes exactly when there is at most one iteration or `time.sleep` accepts the interval (non-negative, at most 2^63-1 nanoseconds); then its trace is calls 0..n-1 with a sleep between consecutive calls and its state is that of max(n, 0) calls in order; otherwise it stops after one call and the sleep that raised |

## Left out

- The HTTP request and HTML parsing (`requests.get`, BeautifulSoup's `find` and
  `get_text`, lines 47-49 and 54): a fetched page is the `Page` value, with the
  container's text, joined with line breaks, given as a string.
- The clock (`_get_current_time`, lines 29-35, with the Jalali calendar): Date and
  Time are opaque strings passed in.
- The DataFrame representation and the CSV format of `to_csv`: the dataset is a
  sequence of records and the file is the dataset last written, or unknown after
  a failed write; what a `price.csv` left by an earlier process contains, and
  what a failed write leaves in it, are not modelled.
- `start_thread`, `join` and the `__main__` block (lines 106-121): threading adds
  nothing beyond running the loop once.
- `print` logging, and the real waiting of `time.sleep`: a sleep is only an event
  in the trace, plus the exception it raises for a negative or too-large length
  (`SleepRaises`).
- Collector.StartScheduledScraping: the interval is a `real`, so a NaN interval
  (which `time.sleep` also rejects) and a non-integer iteration count (a
  `TypeError` from `range`) are not modelled; the upper bound `time.sleep`
  accepts is stated in exact arithmetic (interval times 10^9 at most 2^63-1),
  not with the floating-point rounding CPython applies at that boundary.
- The collector receives the outcome of `_scrape_prices` for
  each call rather than the page, so the two are connected through
  `Extract.ScrapePrices` instead of inside the loop.
- Exceptions outside `Exception` (such as `KeyboardInterrupt`) are not modelled.

=== FILE: collector.dfy ===
/**
 The collector (main.py lines 75-104): one `get_prices` call appends the scraped row
 to the DataFrame, drops incomplete rows and rewrites `price.csv`; the scheduling
 loop calls it a fixed number of times with sleeps in between. The DataFrame is a
 sequence of records, and the CSV file is what this scraper knows of `price.csv`. What the world
 decides for each call is supplied by an environment function: the outcome of
 `_scrape_prices` on the page fetched then (see `Extract.ScrapePrices`, which maps a
 fetched page and clock readings to that outcome) and whether the write succeeds.
 */
module Collector {
  import opened Wrappers
  import opened Extract
  import Fragments

  /** What one `get_prices` call meets: the outcome of `_scrape_prices` (line 80),
      `ScrapePrices(page, date, time)` for the page and clock of that moment, and
      whether `to_csv` (line 88) succeeds. */
  datatype Attempt = Attempt(scraped: Result<Record, ScrapeError>, writeOk: bool)

  /** What is known of `price.csv` after this scraper's writes. `to_csv` opens the
      file for writing, which truncates it, before writing any row, so a write that
      fails may leave the old contents, nothing, or a partial table: `Unknown`. */
  datatype CsvFile =
    | Untouched                 // not written by this scraper yet
    | Holds(data: seq<Record>)  // the last write succeeded with this dataset
    | Unknown                   // the last write raised

  /** The state a `PriceScraper` carries between calls: the rows of `self.df`, and
      what is known of `price.csv`. */
  datatype Scraper = Scraper(rows: seq<Record>, file: CsvFile)

  /** The state right after `__init__` (line 27): no rows, nothing written yet. */
  function Init(): (r: Scraper)
    ensures r.rows == [] && !r.file.Holds?
    ensures Valid(r)
  {
    Scraper([], Untouched)
  }

  /** Every row is complete. */
  predicate AllComplete(rows: seq<Record>) {
    forall k :: 0 <= k < |rows| ==> Complete(rows[k])
  }

  /** `df.dropna()`: the complete rows, in their order. */
  function DropNa(rows: seq<Record>): (r: seq<Record>)
    ensures AllComplete(r)
    ensures |r| <= |rows|
    ensures forall k :: 0 <= k < |r| ==> r[k] in rows
  {
    if rows == [] then []
    else if Complete(rows[0]) then [rows[0]] + DropNa(rows[1..])
    else DropNa(rows[1..])
  }

  /** `dropna` changes nothing exactly when every row is already complete. */
  lemma {:induction false} DropNaFixpoint(rows: seq<Record>)
    ensures DropNa(rows) == rows <==> AllComplete(rows)
    decreases |rows|
  {
    if rows != [] {
      DropNaFixpoint(rows[1..]);
      if Complete(rows[0]) {
        assert rows == [rows[0]] + rows[1..];
        assert forall k :: 1 <= k < |rows| ==> rows[k] == rows[1..][k - 1];
      } else {
        assert |DropNa(rows)| < |rows|;
      }
    }
  }

  /** A row is in the result of `dropna` exactly when it is a complete row of the
      input: incomplete rows are removed, not replaced. */
  lemma {:induction false} DropNaMembers(rows: seq<Record>, x: Record)
    ensures x in DropNa(rows) <==> x in rows && Complete(x)
    decreases |rows|
  {
    if rows != [] {
      DropNaMembers(rows[1..], x);
      assert rows == [rows[0]] + rows[1..];
    }
  }

  /** `dropna` works row by row. */
  lemma {:induction false} DropNaAppend(a: seq<Record>, b: seq<Record>)
    ensures DropNa(a + b) == DropNa(a) + DropNa(b)
    decreases |a|
  {
    if a == [] {
      assert a + b == b;
    } else {
      assert (a + b)[1..] == a[1..] + b;
      DropNaAppend(a[1..], b);
    }
  }

  /** The rows `get_prices` adds for a scraped record: the record itself when it is
      complete, nothing otherwise. */
  function NewRows(rec: Record): (r: seq<Record>)
    ensures AllComplete(r) && |r| <= 1
    ensures rec in r <==> Complete(rec)
    ensures forall x :: x in r ==> x == rec
  {
    if Complete(rec) then [rec] else []
  }

  /** `get_prices` (lines 79-91). A scrape that raises changes nothing: the `except`
      of line 90 is reached before the DataFrame is touched. Otherwise the row is
      concatenated, `dropna` runs, and `to_csv` writes the whole dataset; a failing
      write is caught by the same `except` after the DataFrame has been updated,
      leaving the file's contents unknown. */
  function GetPrices(s: Scraper, a: Attempt): (r: Scraper)
    ensures a.scraped.Failure? ==> r == s
    ensures AllComplete(s.rows) ==> AllComplete(r.rows)
    ensures a.scraped.Success? && AllComplete(s.rows) ==> r.rows == s.rows + NewRows(a.scraped.value)
    ensures a.scraped.Success? ==> r.file == (if a.writeOk then Holds(r.rows) else Unknown)
  {
    match a.scraped
    case Failure(_) => s
    case Success(rec) =>
      var rows := DropNa(s.rows + [rec]);
      DropNaAppend(s.rows, [rec]);
      DropNaFixpoint(s.rows);
      Scraper(rows, if a.writeOk then Holds(rows) else Unknown)
  }

  /** The scraper's invariant: its rows are complete, and a file known to hold a
      dataset holds exactly the current one, since the rows change only on the path
      that then rewrites the file or leaves it unknown. */
  predicate Valid(s: Scraper) {
    AllComplete(s.rows) && (s.file.Holds? ==> s.file.data == s.rows)
  }

  /** `get_prices` keeps the invariant. */
  lemma GetPricesValid(s: Scraper, a: Attempt)
    requires Valid(s)
    ensures Valid(GetPrices(s, a))
  {
  }

  /** The state after the first `k` calls of `get_prices`, the i-th one facing
      `env(i)`. */
  function Collect(s: Scraper, env: nat -> Attempt, k: nat): Scraper {
    if k == 0 then s else GetPrices(Collect(s, env, k - 1), env(k - 1))
  }

  /** The records the first `k` attempts contribute: the complete ones among the
      scrapes that did not raise, in scrape order. */
  function Kept(env: nat -> Attempt, k: nat): seq<Record> {
    if k == 0 then [] else Kept(env, k - 1) + NewRowsOf(env(k - 1))
  }

  /** The rows one attempt contributes. */
  function NewRowsOf(a: Attempt): seq<Record> {
    match a.scraped case Success(rec) => NewRows(rec) case Failure(_) => []
  }

  /** The dataset after `k` calls is the starting dataset followed by the complete
      records of the successful scrapes, in the order they were scraped. */
  lemma {:induction false} CollectRows(s: Scraper, env: nat -> Attempt, k: nat)
    requires AllComplete(s.rows)
    ensures AllComplete(Collect(s, env, k).rows)
    ensures Collect(s, env, k).rows == s.rows + Kept(env, k)
  {
    if k > 0 {
      CollectRows(s, env, k - 1);
      assert s.rows + Kept(env, k - 1) + NewRowsOf(env(k - 1)) == s.rows + Kept(env, k);
    }
  }

  /** Every call keeps the invariant, so it holds after any number of calls. */
  lemma {:induction false} CollectValid(s: Scraper, env: nat -> Attempt, k: nat)
    requires Valid(s)
    ensures Valid(Collect(s, env, k))
  {
    if k > 0 {
      CollectValid(s, env, k - 1);
      GetPricesValid(Collect(s, env, k - 1), env(k - 1));
    }
  }

  /** When every scrape succeeds with a complete record, each attempt contributes its
      own record. */
  lemma {:induction false} KeptAll(env: nat -> Attempt, k: nat)
    requires forall i :: 0 <= i < k ==> env(i).scraped.Success? && Complete(env(i).scraped.value)
    ensures |Kept(env, k)| == k
    ensures forall i :: 0 <= i < k ==> Kept(env, k)[i] == env(i).scraped.value
  {
    if k > 0 {
      KeptAll(env, k - 1);
      assert Kept(env, k) == Kept(env, k - 1) + [env(k - 1).scraped.value];
    }
  }

  /** When every scrape succeeds with a complete record, the dataset grows by
      exactly one row per call, in call order. */
  lemma CollectAllComplete(s: Scraper, env: nat -> Attempt, k: nat)
    requires AllComplete(s.rows)
    requires forall i :: 0 <= i < k ==> env(i).scraped.Success? && Complete(env(i).scraped.value)
    ensures |Collect(s, env, k).rows| == |s.rows| + k
    ensures Collect(s, env, k).rows[..|s.rows|] == s.rows
    ensures forall i :: 0 <= i < k ==> Collect(s, env, k).rows[|s.rows| + i] == env(i).scraped.value
  {
    CollectRows(s, env, k);
    KeptAll(env, k);
    var rows := Collect(s, env, k).rows;
    assert rows[..|s.rows|] == s.rows;
    forall i | 0 <= i < k
      ensures rows[|s.rows| + i] == env(i).scraped.value
    {
      assert rows[|s.rows| + i] == Kept(env, k)[i];
    }
  }

  /** After a call whose scrape succeeded and whose write succeeded, the file holds
      the whole current dataset: each write overwrites rather than appends. */
  lemma SavedAfterWrite(s: Scraper, env: nat -> Attempt, k: nat)
    requires k > 0 && env(k - 1).scraped.Success? && env(k - 1).writeOk
    ensures Collect(s, env, k).file == Holds(Collect(s, env, k).rows)
  {
  }

  /** One event of the scheduling loop: a `get_prices` call for an iteration, or a
      `time.sleep` of the given length. */
  datatype Event = Fetch(iteration: nat) | Sleep(seconds: real)

  /** `trace` is the full schedule of `n` iterations: calls 0 .. n-1, each but the
      last followed by a sleep. */
  predicate IsSchedule(trace: seq<Event>, n: int, interval: real) {
    && |trace| == (if n <= 0 then 0 else 2 * n - 1)
    && forall j :: 0 <= j < |trace| ==> trace[j] == (if j % 2 == 0 then Fetch(j / 2) else Sleep(interval))
  }

  /** The number of `get_prices` calls in a trace. */
  function Fetches(trace: seq<Event>): nat {
    if trace == [] then 0 else Fetches(trace[..|trace| - 1]) + (if trace[|trace| - 1].Fetch? then 1 else 0)
  }

  /** The number of sleeps in a trace. */
  function Sleeps(trace: seq<Event>): nat {
    if trace == [] then 0 else Sleeps(trace[..|trace| - 1]) + (if trace[|trace| - 1].Sleep? then 1 else 0)
  }

  /** A full schedule of `n` iterations calls `get_prices` max(n, 0) times, sleeps
      max(n - 1, 0) times, and never ends with a sleep. */
  lemma {:induction false} ScheduleCounts(trace: seq<Event>, n: int, interval: real)
    requires IsSchedule(trace, n, interval)
    ensures Fetches(trace) == (if n <= 0 then 0 else n)
    ensures Sleeps(trace) == (if n <= 1 then 0 else n - 1)
    ensures trace != [] ==> trace[|trace| - 1].Fetch?
    decreases if n <= 0 then 0 else n
  {
    if n > 1 {
      var prefix := trace[..|trace| - 2];
      assert IsSchedule(prefix, n - 1, interval);
      ScheduleCounts(prefix, n - 1, interval);
      assert trace[..|trace| - 1][..|trace| - 2] == prefix;
      assert trace[|trace| - 2] == Sleep(interval);
      assert trace[|trace| - 1] == Fetch(n - 1);
    } else if n == 1 {
      assert trace[..0] == [];
    }
  }

  /** The largest sleep CPython accepts, in nanoseconds: `time.sleep` converts its
      argument to a signed 64-bit count of nanoseconds. */
  const MaxSleepNanos: int := 0x7FFF_FFFF_FFFF_FFFF

  /** `time.sleep(interval)` raises: `ValueError` for a negative length, and
      `OverflowError` for one whose nanosecond count does not fit 64 bits. */
  predicate SleepRaises(interval: real) {
    interval < 0.0 || interval * 1_000_000_000.0 > MaxSleepNanos as real
  }

  /** `start_scheduled_scraping` (lines 98-104) on a scraper in state `s`, the i-th
      call of `get_prices` facing `env(i)`. When `time.sleep` rejects the interval
      it raises on the first sleep; nothing catches that, so the run then stops
      after its first call and `completed` is false. */
  method StartScheduledScraping(s: Scraper, env: nat -> Attempt, iterations: int, interval: real)
    returns (r: Scraper, trace: seq<Event>, completed: bool)
    ensures completed <==> (iterations <= 1 || !SleepRaises(interval))
    ensures completed ==> IsSchedule(trace, iterations, interval)
    ensures completed ==> r == Collect(s, env, if iterations <= 0 then 0 else iterations)
    ensures !completed ==> trace == [Fetch(0), Sleep(interval)] && r == GetPrices(s, env(0))
  {
    r := s;
    trace := [];
    var i: nat := 0;
    while i < iterations
      invariant iterations >= 0 ==> i <= iterations
      invariant iterations < 0 ==> i == 0
      invariant SleepRaises(interval) && iterations > 1 ==> i == 0
      invariant r == Collect(s, env, i)
      invariant |trace| == (if i == 0 then 0 else if i < iterations then 2 * i else 2 * i - 1)
      invariant forall j :: 0 <= j < |trace| ==> trace[j] == (if j % 2 == 0 then Fetch(j / 2) else Sleep(interval))
    {
      r := GetPrices(r, env(i));
      trace := trace + [Fetch(i)];
      if i < iterations - 1 {
        trace := trace + [Sleep(interval)];
        if SleepRaises(interval) {
          completed := false;
          return;
        }
      }
      i := i + 1;
    }
    completed := true;
  }

  /** A run of three calls whose second scrape raises keeps the rows of the first and
      the third, in that order. */
  lemma FailureMidRun(env: nat -> Attempt, r0: Record, r2: Record)
    requires env(0).scraped == Success(r0) && Complete(r0)
    requires env(1).scraped.Failure?
    requires env(2).scraped == Success(r2) && Complete(r2)
    ensures Collect(Init(), env, 3).rows == [r0, r2]
  {
    CollectRows(Init(), env, 3);
    assert Kept(env, 1) == [r0];
    assert Kept(env, 2) == [r0];
  }

  /** A page whose only occurrence of some label is its last fragment leaves the
      scraper exactly as it was: the index error is caught by `get_prices`, and
      `to_csv` is not reached. */
  lemma LastLabelLeavesScraper(s: Scraper, text: string, date: string, time: string, writeOk: bool, j: nat)
    requires j < |ColumnMap|
    requires var items := Fragments.PriceItems(text);
             |items| > 0 && items[|items| - 1] == ColumnMap[j].0 && ColumnMap[j].0 !in items[..|items| - 1]
    ensures GetPrices(s, Attempt(ScrapePrices(Fetched(Some(text)), date, time), writeOk)) == s
  {
    LastLabelFailsScrape(text, date, time, j);
  }
}

=== FILE: extract.dfy ===
/**
 The extraction routine `_scrape_prices` (main.py lines 43-73): the column map, the
 label-following lookup and the record it produces. Fetching the page and finding
 the info-bar container are abstracted into a `Page` value; the clock readings are
 passed in as opaque strings.
 */
module Extract {
  import opened Wrappers
  import opened Fragments

  /** The `column_map` of lines 15-25, in its insertion order: each Persian label
      of the info bar paired with the English column it fills. */
  const ColumnMap: seq<(string, string)> := [
    ("بورس", "Stock"),
    ("انس طلا", "GoldOunce"),
    ("مثقال طلا", "GoldMithqal"),
    ("طلا ۱۸", "Gold18K"),
    ("سکه", "Coin"),
    ("دلار", "Dollar"),
    ("نفت برنت", "BrentOil"),
    ("تتر", "Tether"),
    ("بیت کوین", "Bitcoin")
  ]

  /** The header of the DataFrame built on line 27: the English columns in map order,
      then Date and Time. */
  function Columns(): (cs: seq<string>)
    ensures |cs| == |ColumnMap| + 2
    ensures forall j :: 0 <= j < |ColumnMap| ==> cs[j] == ColumnMap[j].1
    ensures cs[|ColumnMap|] == "Date" && cs[|ColumnMap| + 1] == "Time"
  {
    seq(|ColumnMap|, j requires 0 <= j < |ColumnMap| => ColumnMap[j].1) + ["Date", "Time"]
  }

  /** The header has eleven different column names: the nine price columns are
      distinct from one another and from Date and Time. */
  lemma ColumnsDistinct()
    ensures forall i, j :: 0 <= i < j < |Columns()| ==> Columns()[i] != Columns()[j]
    ensures |PriceColumns()| == |ColumnMap|
  {
    var cs := Columns();
    NamesDistinct();
    assert forall j :: 0 <= j < |ColumnMap| ==> cs[j] == ColumnMap[j].1;
    DistinctImage(ColumnMap);
  }

  /** Distinct names give a set with one member per entry. */
  lemma {:induction false} DistinctImage(cols: seq<(string, string)>)
    requires DistinctNames(cols)
    ensures |NameSet(cols)| == |cols|
    decreases |cols|
  {
    if cols != [] {
      var init := cols[..|cols| - 1];
      assert DistinctNames(init);
      DistinctImage(init);
      NameSetSnoc(cols);
      assert cols[|cols| - 1].1 !in NameSet(init);
    }
  }

  /** The English column names filled from the info bar. */
  function PriceColumns(): set<string> {
    NameSet(ColumnMap)
  }

  /** Why a scrape raised. `FetchFailed` stands for any exception out of the HTTP
      request (line 47), `ContainerNotFound` for line 51, and `IndexOutOfRange` for
      the `IndexError` of line 64, which the `except ValueError` of line 65 does not
      catch. */
  datatype ScrapeError = FetchFailed | ContainerNotFound | IndexOutOfRange

  /** What the fetch of lines 47-49 leaves: either the request raised, or the page
      was parsed and the info-bar `ul` was found (`Some(text)`, its text content
      joined with line breaks) or not (`None`). */
  datatype Page = Unreachable | Fetched(container: Option<string>)

  /** The field values of one scrape, keyed by English column name; `None` is Python's
      `None` for a label missing from the info bar. */
  type Fields = map<string, Option<string>>

  /** One row produced by `_scrape_prices`: the price fields plus Date and Time. */
  datatype Record = Record(prices: Fields, date: string, time: string)

  /** A row survives `dropna` when it has a value in every price column: `concat`
      fills a column the record lacks with NaN, and a `None` field is missing too;
      Date and Time are always strings. */
  predicate Complete(rec: Record) {
    && rec.prices.Keys == PriceColumns()
    && forall n :: n in rec.prices ==> rec.prices[n].Some?
  }

  /** `key` occurs at `i` and nowhere before it. */
  predicate FirstAt(items: seq<string>, key: string, i: int) {
    0 <= i < |items| && items[i] == key && key !in items[..i]
  }

  /** Python's `items.index(x)`; `None` stands for the `ValueError` it raises when `x`
      is absent. */
  function IndexOf(items: seq<string>, x: string): (r: Option<nat>)
    ensures r.None? <==> x !in items
    ensures r.Some? ==> FirstAt(items, x, r.value)
  {
    if items == [] then None
    else if items[0] == x then Some(0)
    else match IndexOf(items[1..], x)
      case None => None
      case Some(i) =>
        assert items[1..][..i] == items[1..i + 1];
        Some(i + 1)
  }

  /** Lines 62-66 for one label: the fragment right after the label's first
      occurrence, `None` when the label is absent, and an uncaught index error when
      that first occurrence is the last fragment. */
  function LookupField(items: seq<string>, key: string): (r: Result<Option<string>, ScrapeError>)
    ensures r == Success(None) <==> key !in items
    ensures forall i {:trigger FirstAt(items, key, i)} :: FirstAt(items, key, i) ==>
              r == (if i + 1 < |items| then Success(Some(items[i + 1])) else Failure(IndexOutOfRange))
  {
    match IndexOf(items, key)
    case None => Success(None)
    case Some(i) =>
      FirstAtUnique(items, key, i);
      if i + 1 < |items| then Success(Some(items[i + 1])) else Failure(IndexOutOfRange)
  }

  /** A label has at most one first occurrence. */
  lemma FirstAtUnique(items: seq<string>, key: string, i: int)
    requires FirstAt(items, key, i)
    ensures forall j {:trigger FirstAt(items, key, j)} :: FirstAt(items, key, j) ==> j == i
  {
    forall j | FirstAt(items, key, j)
      ensures j == i
    {
    }
  }

  /** The lookup fails exactly when the label occurs only as the last fragment. */
  lemma LookupFailsIff(items: seq<string>, key: string)
    ensures LookupField(items, key).Failure? <==>
              (|items| > 0 && items[|items| - 1] == key && key !in items[..|items| - 1])
  {
    if key in items {
      var i := IndexOf(items, key).value;
      assert FirstAt(items, key, i);
      if i + 1 < |items| {
        assert items[..|items| - 1][i] == key;
      } else {
        assert items[..|items| - 1] == items[..i];
      }
    }
  }

  /** Later duplicates of a label are never consulted: once the label occurs before
      the last fragment of `a`, whatever follows `a` does not change the lookup. */
  lemma LookupIgnoresSuffix(a: seq<string>, b: seq<string>, key: string)
    requires |a| > 0 && key in a[..|a| - 1]
    ensures LookupField(a + b, key) == LookupField(a, key)
  {
    var i :| 0 <= i < |a| - 1 && a[..|a| - 1][i] == key;
    var f := IndexOf(a, key).value;
    assert FirstAt(a, key, f);
    FirstAtUnique(a, key, f);
    assert (a + b)[..f] == a[..f];
    assert FirstAt(a + b, key, f);
  }

  /** The English names are pairwise different. */
  predicate DistinctNames(cols: seq<(string, string)>) {
    forall i, j :: 0 <= i < j < |cols| ==> cols[i].1 != cols[j].1
  }

  /** The loop of lines 61-66 over the entries `cols` of a column map, in order.
      Python raises out of the loop at the first failing key; every failure is the
      same index error, so only whether one occurs matters. */
  function BuildFields(items: seq<string>, cols: seq<(string, string)>): (r: Result<Fields, ScrapeError>)
    ensures r.Success? <==> forall j :: 0 <= j < |cols| ==> LookupField(items, cols[j].0).Success?
    ensures r.Failure? ==> r.error == IndexOutOfRange
  {
    if cols == [] then Success(map[])
    else
      var last := cols[|cols| - 1];
      match BuildFields(items, cols[..|cols| - 1])
      case Failure(e) => Failure(e)
      case Success(m) =>
        match LookupField(items, last.0)
        case Failure(e) => Failure(e)
        case Success(v) => Success(m[last.1 := v])
  }

  /** A completed loop has filled exactly the English columns it visited, each with
      its own key's lookup: a key's field depends only on the fragments and that
      key, never on the other keys. */
  lemma {:induction false} BuildFieldsContents(items: seq<string>, cols: seq<(string, string)>)
    requires DistinctNames(cols)
    requires BuildFields(items, cols).Success?
    ensures BuildFields(items, cols).value.Keys == NameSet(cols)
    ensures forall j :: 0 <= j < |cols| ==>
              BuildFields(items, cols).value[cols[j].1] == LookupField(items, cols[j].0).value
    decreases |cols|
  {
    if cols != [] {
      var init := cols[..|cols| - 1];
      var last := cols[|cols| - 1];
      assert DistinctNames(init);
      BuildFieldsContents(items, init);
      var m := BuildFields(items, init).value;
      var v := LookupField(items, last.0).value;
      var m' := m[last.1 := v];
      assert BuildFields(items, cols).value == m';
      NameSetSnoc(cols);
      forall j | 0 <= j < |cols|
        ensures m'[cols[j].1] == LookupField(items, cols[j].0).value
      {
        if j < |init| {
          assert init[j] == cols[j];
          assert cols[j].1 != last.1;
        }
      }
    }
  }

  /** The English names of the entries `cols`. */
  function NameSet(cols: seq<(string, string)>): set<string> {
    set j | 0 <= j < |cols| :: cols[j].1
  }

  /** The names of a non-empty list are those of all but its last entry, plus the
      last entry's. */
  lemma NameSetSnoc(cols: seq<(string, string)>)
    requires cols != []
    ensures NameSet(cols) == NameSet(cols[..|cols| - 1]) + {cols[|cols| - 1].1}
  {
    var init := cols[..|cols| - 1];
    assert forall j :: 0 <= j < |init| ==> init[j] == cols[j];
  }

  /** The nine English names are pairwise different, so every label gets a column of
      its own. */
  lemma NamesDistinct()
    ensures DistinctNames(ColumnMap)
  {
  }

  /** The nine Persian labels are pairwise different, so the dict literal of lines
      15-25 really has nine entries. */
  lemma LabelsDistinct()
    ensures forall i, j :: 0 <= i < j < |ColumnMap| ==> ColumnMap[i].0 != ColumnMap[j].0
  {
  }

  /** `_scrape_prices`: the record read from one fetched page, with `date` and `time`
      standing for the clock readings of lines 33-34. Its three ways of raising are
      characterised here; ScrapedRecord describes the record it returns otherwise. */
  function ScrapePrices(page: Page, date: string, time: string): (r: Result<Record, ScrapeError>)
    ensures r == Failure(FetchFailed) <==> page.Unreachable?
    ensures r == Failure(ContainerNotFound) <==> page == Fetched(None)
    ensures r == Failure(IndexOutOfRange) <==>
              page.Fetched? && page.container.Some? &&
              exists j :: 0 <= j < |ColumnMap| && LookupField(PriceItems(page.container.value), ColumnMap[j].0).Failure?
  {
    match page
    case Unreachable => Failure(FetchFailed)
    case Fetched(None) => Failure(ContainerNotFound)
    case Fetched(Some(text)) =>
      match BuildFields(PriceItems(text), ColumnMap)
      case Failure(e) => Failure(e)
      case Success(m) => Success(Record(m, date, time))
  }

  /** A successful scrape carries exactly the nine English price columns, each holding
      its own label's lookup in the cleaned fragments, and the clock readings it was
      given. */
  lemma ScrapedRecord(text: string, date: string, time: string)
    requires ScrapePrices(Fetched(Some(text)), date, time).Success?
    ensures var rec := ScrapePrices(Fetched(Some(text)), date, time).value;
            && rec.prices.Keys == PriceColumns()
            && rec.date == date && rec.time == time
            && forall j :: 0 <= j < |ColumnMap| ==>
                 rec.prices[ColumnMap[j].1] == LookupField(PriceItems(text), ColumnMap[j].0).value
  {
    NamesDistinct();
    BuildFieldsContents(PriceItems(text), ColumnMap);
  }

  /** A successful scrape yields a complete record exactly when every label occurs
      in the cleaned fragments. */
  lemma CompleteIffAllLabels(text: string, date: string, time: string)
    requires ScrapePrices(Fetched(Some(text)), date, time).Success?
    ensures Complete(ScrapePrices(Fetched(Some(text)), date, time).value) <==>
              forall j :: 0 <= j < |ColumnMap| ==> ColumnMap[j].0 in PriceItems(text)
  {
    var rec := ScrapePrices(Fetched(Some(text)), date, time).value;
    var items := PriceItems(text);
    ScrapedRecord(text, date, time);
    if Complete(rec) {
      forall j | 0 <= j < |ColumnMap|
        ensures ColumnMap[j].0 in items
      {
        assert ColumnMap[j].1 in rec.prices;
      }
    }
    if forall j :: 0 <= j < |ColumnMap| ==> ColumnMap[j].0 in items {
      forall n | n in rec.prices
        ensures rec.prices[n].Some?
      {
        var j :| 0 <= j < |ColumnMap| && ColumnMap[j].1 == n;
        assert LookupField(items, ColumnMap[j].0) != Success(None);
      }
    }
  }

  /** An info bar with no text at all is still found, but yields a record whose
      every price is `None`. */
  lemma EmptyContainer(date: string, time: string)
    ensures var r := ScrapePrices(Fetched(Some("")), date, time);
            && r.Success?
            && r.value.prices.Keys == PriceColumns()
            && forall n :: n in r.value.prices ==> r.value.prices[n] == None
  {
    BlankText("");
    assert ScrapePrices(Fetched(Some("")), date, time).Success?;
    ScrapedRecord("", date, time);
  }

  /** A label whose only occurrence is the last fragment makes the whole scrape raise
      instead of leaving that one field `None`. */
  lemma LastLabelFailsScrape(text: string, date: string, time: string, j: nat)
    requires j < |ColumnMap|
    requires var items := PriceItems(text);
             |items| > 0 && items[|items| - 1] == ColumnMap[j].0 && ColumnMap[j].0 !in items[..|items| - 1]
    ensures ScrapePrices(Fetched(Some(text)), date, time) == Failure(IndexOutOfRange)
  {
    LookupFailsIff(PriceItems(text), ColumnMap[j].0);
  }

  /** The example of a well-formed info bar: a label followed by its value fills that
      label's column, and the labels that are absent leave their columns `None`. */
  lemma DollarAndCoin()
    ensures var items := ["دلار", "58,200", "سکه", "28,500,000"];
            && LookupField(items, "دلار") == Success(Some("58,200"))
            && LookupField(items, "سکه") == Success(Some("28,500,000"))
            && LookupField(items, "بورس") == Success(None)
  {
    var items := ["دلار", "58,200", "سکه", "28,500,000"];
    assert FirstAt(items, "دلار", 0);
    assert items[..2] == ["دلار", "58,200"];
    assert FirstAt(items, "سکه", 2);
    assert "بورس" !in items;
  }
}

=== FILE: fragments.dfy ===
/**
 Cleaning of the info-bar text (main.py lines 54-57): the text is split on line
 breaks, every fragment is stripped, and the noise fragments are dropped.
 */
module Fragments {
  import opened Text

  /** A fragment survives the filter of line 57 when it is non-empty, is not a
      stray closing parenthesis and carries no percent sign. */
  predicate Keep(item: string) {
    item != [] && item != ")" && '%' !in item
  }

  /** The list comprehension of line 57. */
  function Filter(xs: seq<string>): (r: seq<string>)
    ensures forall k :: 0 <= k < |r| ==> Keep(r[k])
    ensures |r| <= |xs|
  {
    if xs == [] then []
    else if Keep(xs[0]) then [xs[0]] + Filter(xs[1..])
    else Filter(xs[1..])
  }

  /** `a` is obtained from `b` by deleting elements, keeping the order of the rest. */
  predicate IsSubseq(a: seq<string>, b: seq<string>)
    decreases |b|
  {
    a == [] || (b != [] && ((a[0] == b[0] && IsSubseq(a[1..], b[1..])) || IsSubseq(a, b[1..])))
  }

  /** The list comprehension of line 55: every fragment stripped. */
  function StripAll(xs: seq<string>): (r: seq<string>)
    ensures |r| == |xs|
    ensures forall k :: 0 <= k < |r| ==> Trimmed(r[k]) && |r[k]| <= |xs[k]|
    ensures forall k :: 0 <= k < |r| ==> Padded(xs[k], r[k])
  {
    forall k | 0 <= k < |xs| ensures Padded(xs[k], Strip(xs[k])) {
      StripPadded(xs[k]);
    }
    seq(|xs|, k requires 0 <= k < |xs| => Strip(xs[k]))
  }

  /** `price_items` after line 57, as a function of the container's text. */
  function PriceItems(text: string): (r: seq<string>)
    ensures forall k :: 0 <= k < |r| ==> Keep(r[k])
    ensures |r| <= Count('\n', text) + 1
  {
    SplitCount(text);
    Filter(StripAll(Split(text)))
  }

  /** The filter keeps the surviving fragments in their original order. */
  lemma {:induction false} FilterSubseq(xs: seq<string>)
    ensures IsSubseq(Filter(xs), xs)
    decreases |xs|
  {
    if xs != [] {
      FilterSubseq(xs[1..]);
      if Keep(xs[0]) {
        assert Filter(xs)[1..] == Filter(xs[1..]);
      }
    }
  }

  /** A fragment is in the filtered list exactly when it was in the input and is
      not noise. */
  lemma {:induction false} FilterMembers(xs: seq<string>, y: string)
    ensures y in Filter(xs) <==> y in xs && Keep(y)
    decreases |xs|
  {
    if xs != [] {
      FilterMembers(xs[1..], y);
      assert xs == [xs[0]] + xs[1..];
    }
  }

  /** The filter changes nothing exactly when there is no noise to remove. */
  lemma {:induction false} FilterFixpoint(xs: seq<string>)
    ensures Filter(xs) == xs <==> forall k :: 0 <= k < |xs| ==> Keep(xs[k])
    decreases |xs|
  {
    if xs != [] {
      FilterFixpoint(xs[1..]);
      if Keep(xs[0]) {
        assert xs == [xs[0]] + xs[1..];
        assert forall k :: 1 <= k < |xs| ==> xs[k] == xs[1..][k - 1];
      } else {
        assert |Filter(xs)| < |xs|;
      }
    }
  }

  /** Filtering an already filtered list leaves it unchanged. */
  lemma FilterIdempotent(xs: seq<string>)
    ensures Filter(Filter(xs)) == Filter(xs)
  {
    FilterFixpoint(Filter(xs));
  }

  /** The filter works fragment by fragment, so it distributes over concatenation. */
  lemma {:induction false} FilterAppend(a: seq<string>, b: seq<string>)
    ensures Filter(a + b) == Filter(a) + Filter(b)
    decreases |a|
  {
    if a == [] {
      assert a + b == b;
    } else {
      assert (a + b)[1..] == a[1..] + b;
      FilterAppend(a[1..], b);
    }
  }

  /** A whitespace-only fragment strips to the empty string and is dropped. */
  lemma BlankDropped(p: string)
    requires AllSpace(p)
    ensures !Keep(Strip(p))
    ensures Filter(StripAll([p])) == []
  {
    StripEmptyIff(p);
  }

  /** Every item of `price_items` is free of noise and line breaks, and equals its
      own strip; the list is an order-preserving subsequence of the stripped
      fragments. */
  lemma PriceItemsClean(text: string)
    ensures forall k :: 0 <= k < |PriceItems(text)| ==>
              && Keep(PriceItems(text)[k])
              && '\n' !in PriceItems(text)[k]
              && Strip(PriceItems(text)[k]) == PriceItems(text)[k]
    ensures IsSubseq(PriceItems(text), StripAll(Split(text)))
  {
    var stripped := StripAll(Split(text));
    var items := PriceItems(text);
    FilterSubseq(stripped);
    forall k | 0 <= k < |items|
      ensures '\n' !in items[k] && Strip(items[k]) == items[k]
    {
      FilterMembers(stripped, items[k]);
      var j :| 0 <= j < |stripped| && stripped[j] == items[k];
      var piece := Split(text)[j];
      StripIdempotent(piece);
      var pre, post := StripDecomposes(piece);
      assert piece == pre + items[k] + post;
    }
  }

  /** A stripped fragment occurs in StripAll(xs) exactly when it is the strip of
      some fragment of `xs`. */
  lemma StripAllMembers(xs: seq<string>, y: string)
    ensures y in StripAll(xs) <==> exists p :: p in xs && Strip(p) == y
  {
    var stripped := StripAll(xs);
    if y in stripped {
      var j :| 0 <= j < |stripped| && stripped[j] == y;
      assert xs[j] in xs;
    }
    if exists p :: p in xs && Strip(p) == y {
      var p :| p in xs && Strip(p) == y;
      var j :| 0 <= j < |xs| && xs[j] == p;
      assert stripped[j] == y;
    }
  }

  /** An item occurs in `price_items` exactly when it is the strip of some line of
      the text and is not noise. */
  lemma PriceItemsMembers(text: string, y: string)
    ensures y in PriceItems(text) <==> Keep(y) && exists p :: p in Split(text) && Strip(p) == y
  {
    FilterMembers(StripAll(Split(text)), y);
    StripAllMembers(Split(text), y);
  }

  /** Text made only of whitespace (line breaks included) yields no items. */
  lemma BlankText(text: string)
    requires AllSpace(text)
    ensures PriceItems(text) == []
  {
    if PriceItems(text) != [] {
      var y := PriceItems(text)[0];
      PriceItemsMembers(text, y);
      var p :| p in Split(text) && Strip(p) == y;
      JoinSplit(text);
      PieceOfBlank(Split(text), p);
      StripEmptyIff(p);
    }
  }

  /** Every piece of a join of pieces lies inside it, so it is blank when the join is. */
  lemma {:induction false} PieceOfBlank(ps: seq<string>, p: string)
    requires |ps| >= 1 && p in ps && AllSpace(Join(ps))
    ensures AllSpace(p)
    decreases |ps|
  {
    if |ps| > 1 {
      var rest := Join(ps[1..]);
      assert Join(ps) == ps[0] + "\n" + rest;
      if p == ps[0] {
        assert forall i :: 0 <= i < |p| ==> p[i] == Join(ps)[i];
      } else {
        assert p in ps[1..];
        assert forall i :: 0 <= i < |rest| ==> rest[i] == Join(ps)[|ps[0]| + 1 + i];
        PieceOfBlank(ps[1..], p);
      }
    }
  }

  /** The items a single line contributes: its strip, unless that is noise. */
  function LineItems(line: string): seq<string> {
    if Keep(Strip(line)) then [Strip(line)] else []
  }

  /** Text without a line break is one line. */
  lemma PriceItemsOneLine(a: string)
    requires '\n' !in a
    ensures PriceItems(a) == LineItems(a)
  {
    SplitNoBreak(a);
    assert StripAll([a]) == [Strip(a)];
  }

  /** `price_items` line by line: the first line contributes its own items, in
      front of those of the rest. With PriceItemsOneLine this determines
      `price_items` of every text, repeated fragments included. */
  lemma {:induction false} PriceItemsNextLine(a: string, b: string)
    requires '\n' !in a
    ensures PriceItems(a + "\n" + b) == LineItems(a) + PriceItems(b)
  {
    SplitAtBreak(a, b);
    StripAllCons(a, Split(b));
    FilterCons(Strip(a), StripAll(Split(b)));
  }

  /** Stripping works fragment by fragment. */
  lemma StripAllCons(a: string, ps: seq<string>)
    ensures StripAll([a] + ps) == [Strip(a)] + StripAll(ps)
  {
    StripAllAppend([a], ps);
    assert StripAll([a]) == [Strip(a)];
  }

  /** The filter looks at the first fragment on its own. */
  lemma FilterCons(x: string, xs: seq<string>)
    ensures Filter([x] + xs) == (if Keep(x) then [x] else []) + Filter(xs)
  {
    assert ([x] + xs)[1..] == xs;
  }

  lemma StripAllAppend(a: seq<string>, b: seq<string>)
    ensures StripAll(a + b) == StripAll(a) + StripAll(b)
  {
  }
}

=== FILE: text.dfy ===
/**
 Text primitives used by the scraper: Python's `str.strip()` with no argument and
 `str.split("\n")`, together with the laws that pin them down.
 */
module Text {

  /** The characters Python's `str.isspace()` accepts, which is the set `str.strip()`
      removes when called without an argument. */
  predicate IsSpace(c: char) {
    || ('\t' <= c <= '\r')
    || ('\U{1C}' <= c <= '\U{1F}')
    || c == ' '
    || c == '\U{85}'
    || c == '\U{A0}'
    || c == '\U{1680}'
    || ('\U{2000}' <= c <= '\U{200A}')
    || c == '\U{2028}'
    || c == '\U{2029}'
    || c == '\U{202F}'
    || c == '\U{205F}'
    || c == '\U{3000}'
  }

  /** Every character of `s` is whitespace (vacuously true of the empty string). */
  predicate AllSpace(s: string) {
    forall i :: 0 <= i < |s| ==> IsSpace(s[i])
  }

  /** `s` neither starts nor ends with whitespace. */
  predicate Trimmed(s: string) {
    s == [] || (!IsSpace(s[0]) && !IsSpace(s[|s| - 1]))
  }

  /** Removes leading whitespace: the result is the suffix of `s` left after an
      all-whitespace prefix, and it does not itself start with whitespace. */
  function TrimStart(s: string): (r: string)
    ensures |r| <= |s| && r == s[|s| - |r|..]
    ensures AllSpace(s[..|s| - |r|])
    ensures r == [] || !IsSpace(r[0])
  {
    if |s| > 0 && IsSpace(s[0]) then
      var r := TrimStart(s[1..]);
      assert s[..|s| - |r|] == [s[0]] + s[1..][..|s| - 1 - |r|];
      r
    else s
  }

  /** Removes trailing whitespace: the result is the prefix of `s` left before an
      all-whitespace suffix, and it does not itself end with whitespace. */
  function TrimEnd(s: string): (r: string)
    ensures |r| <= |s| && r == s[..|r|]
    ensures AllSpace(s[|r|..])
    ensures r == [] || !IsSpace(r[|r| - 1])
  {
    if |s| > 0 && IsSpace(s[|s| - 1]) then
      var r := TrimEnd(s[..|s| - 1]);
      assert s[|r|..] == s[..|s| - 1][|r|..] + [s[|s| - 1]];
      r
    else s
  }

  /** Python's `s.strip()`. */
  function Strip(s: string): (r: string)
    ensures Trimmed(r)
    ensures |r| <= |s|
  {
    TrimEnd(TrimStart(s))
  }

  /** Strip only removes whitespace: `s` is `Strip(s)` with an all-whitespace
      prefix and an all-whitespace suffix around it. */
  lemma StripDecomposes(s: string) returns (pre: string, post: string)
    ensures AllSpace(pre) && AllSpace(post)
    ensures s == pre + Strip(s) + post
  {
    pre := TrimStartSplits(s);
    post := TrimEndSplits(TrimStart(s));
    assert s == pre + (Strip(s) + post);
  }

  /** `s` is `t` with whitespace, possibly none, on either side. */
  ghost predicate Padded(s: string, t: string) {
    exists pre, post :: AllSpace(pre) && AllSpace(post) && s == pre + t + post
  }

  /** StripDecomposes as a property of `Strip(s)` alone. */
  lemma StripPadded(s: string)
    ensures Padded(s, Strip(s))
  {
    var pre, post := StripDecomposes(s);
  }

  lemma TrimStartSplits(s: string) returns (pre: string)
    ensures AllSpace(pre) && s == pre + TrimStart(s)
  {
    var u := TrimStart(s);
    pre := s[..|s| - |u|];
    assert u == s[|s| - |u|..];
  }

  lemma TrimEndSplits(u: string) returns (post: string)
    ensures AllSpace(post) && u == TrimEnd(u) + post
  {
    var r := TrimEnd(u);
    post := u[|r|..];
    assert r == u[..|r|];
  }

  lemma {:induction false} TrimStartSkips(pre: string, x: string)
    requires AllSpace(pre)
    requires x == [] || !IsSpace(x[0])
    ensures TrimStart(pre + x) == x
    decreases |pre|
  {
    if pre != [] {
      assert (pre + x)[1..] == pre[1..] + x;
      TrimStartSkips(pre[1..], x);
    } else {
      assert pre + x == x;
    }
  }

  lemma {:induction false} TrimEndSkips(x: string, post: string)
    requires AllSpace(post)
    requires x == [] || !IsSpace(x[|x| - 1])
    ensures TrimEnd(x + post) == x
    decreases |post|
  {
    if post != [] {
      var p := post[..|post| - 1];
      assert (x + post)[..|x + post| - 1] == x + p;
      TrimEndSkips(x, p);
    } else {
      assert x + post == x;
    }
  }

  /** Strip is determined by the decomposition: whatever trimmed text sits between
      two runs of whitespace is exactly what Strip returns. Together with
      StripDecomposes this characterises Strip completely. */
  lemma StripUnique(pre: string, t: string, post: string)
    requires AllSpace(pre) && AllSpace(post) && Trimmed(t)
    ensures Strip(pre + t + post) == t
  {
    if t == [] {
      assert pre + t + post == pre + post;
      assert AllSpace(pre + post);
      TrimStartSkips(pre + post, []);
      assert pre + post + [] == pre + post;
      TrimEndSkips([], []);
    } else {
      assert pre + t + post == pre + (t + post);
      TrimStartSkips(pre, t + post);
      TrimEndSkips(t, post);
    }
  }

  /** Stripping twice is the same as stripping once. */
  lemma StripIdempotent(s: string)
    ensures Strip(Strip(s)) == Strip(s)
  {
    var t := Strip(s);
    assert [] + t + [] == t;
    StripUnique([], t, []);
  }

  /** Strip yields the empty string exactly for the all-whitespace strings. */
  lemma StripEmptyIff(s: string)
    ensures Strip(s) == [] <==> AllSpace(s)
  {
    if AllSpace(s) {
      assert s == s + [] + [];
      StripUnique(s, [], []);
    }
    if Strip(s) == [] {
      var pre, post := StripDecomposes(s);
      assert s == pre + post;
      forall i | 0 <= i < |s|
        ensures IsSpace(s[i])
      {
        if i < |pre| {
          assert s[i] == pre[i];
        } else {
          assert s[i] == post[i - |pre|];
        }
      }
    }
  }

  /** Python's `s.split("\n")`: the pieces between line breaks, always at least one. */
  function Split(s: string): (r: seq<string>)
    ensures |r| >= 1
    ensures forall k :: 0 <= k < |r| ==> '\n' !in r[k]
  {
    if s == [] then [[]]
    else
      var rest := Split(s[1..]);
      if s[0] == '\n' then [[]] + rest
      else [[s[0]] + rest[0]] + rest[1..]
  }

  /** Python's `"\n".join(ps)`, the inverse of Split. */
  function Join(ps: seq<string>): string
    requires |ps| >= 1
  {
    if |ps| == 1 then ps[0] else ps[0] + "\n" + Join(ps[1..])
  }

  /** The number of occurrences of `c` in `s`. */
  function Count(c: char, s: string): nat {
    if s == [] then 0 else (if s[0] == c then 1 else 0) + Count(c, s[1..])
  }

  /** Joining the pieces back with line breaks restores the text. */
  lemma {:induction false} JoinSplit(s: string)
    ensures Join(Split(s)) == s
    decreases |s|
  {
    if s != [] {
      var rest := Split(s[1..]);
      JoinSplit(s[1..]);
      if s[0] == '\n' {
        assert Split(s)[1..] == rest;
        assert s == "\n" + s[1..];
      } else {
        var r := Split(s);
        assert r[0] == [s[0]] + rest[0];
        if |rest| == 1 {
          assert s == [s[0]] + rest[0];
        } else {
          assert r[1..] == rest[1..];
          assert Join(rest) == rest[0] + "\n" + Join(rest[1..]);
          assert s == [s[0]] + s[1..];
        }
      }
    }
  }

  /** A string without line breaks is a single piece. */
  lemma {:induction false} SplitNoBreak(a: string)
    requires '\n' !in a
    ensures Split(a) == [a]
    decreases |a|
  {
    if a != [] {
      assert '\n' !in a[1..];
      SplitNoBreak(a[1..]);
      assert [a[0]] + a[1..] == a;
    }
  }

  /** A line break ends the first piece. */
  lemma {:induction false} SplitAtBreak(a: string, b: string)
    requires '\n' !in a
    ensures Split(a + "\n" + b) == [a] + Split(b)
    decreases |a|
  {
    if a == [] {
      assert a + "\n" + b == "\n" + b;
      assert ("\n" + b)[1..] == b;
    } else {
      var s := a + "\n" + b;
      assert s[1..] == a[1..] + "\n" + b;
      assert '\n' !in a[1..];
      SplitAtBreak(a[1..], b);
      assert [a[0]] + a[1..] == a;
    }
  }

  /** Splitting a join of break-free pieces gives the pieces back. */
  lemma {:induction false} SplitJoin(ps: seq<string>)
    requires |ps| >= 1
    requires forall k :: 0 <= k < |ps| ==> '\n' !in ps[k]
    ensures Split(Join(ps)) == ps
    decreases |ps|
  {
    if |ps| == 1 {
      SplitNoBreak(ps[0]);
    } else {
      SplitJoin(ps[1..]);
      SplitAtBreak(ps[0], Join(ps[1..]));
      assert [ps[0]] + ps[1..] == ps;
    }
  }

  /** There is one more piece than there are line breaks. */
  lemma {:induction false} SplitCount(s: string)
    ensures |Split(s)| == Count('\n', s) + 1
    decreases |s|
  {
    if s != [] {
      SplitCount(s[1..]);
    }
  }
}

=== FILE: wrappers.dfy ===
/** Failure-carrying datatypes shared by the model. */
module Wrappers {

  /** An optional value; the model's stand-in for Python's `None`. */
  datatype Option<+T> = None | Some(value: T)

  /** The outcome of an operation that may raise. */
  datatype Result<+T, +E> = Success(value: T) | Failure(error: E)
}
